=== FILE: README.md ===
# twitter-kinesis-producer: the tweet normaliser and its Kinesis listener

The producer listens to the Twitter streaming API. For every tweet it builds one
flat record and writes it to an Amazon Kinesis stream with `put_record`. This
project models the part of `send_to_kinesis.py` that does that work, in Dafny:

- `create_tweet_for_kinesis` copies nine top-level fields and ten user fields.
  It replaces `created_at` with the UTC ISO time of `timestamp_ms`. It resolves
  the user's sign-up time against the time-zone names (`get_user_created`). It
  extracts the hashtag texts, then adds `name` and a `meta` block (processing
  time, producer, comma-joined keywords).
- `put_tweet_to_kinesis` builds the `put_record` call: stream name, the JSON
  encoding of the record, and partition key `'created_at'`.
- `on_data` chains the two. `on_error` tells the stream to keep running.

A decoded tweet is the field map of a `Values.Dict`; a `Values.Value` is what
`json.loads` yields, plus `Time` for a `datetime` object. The calls into
Python's `int`, `datetime`, `dateutil` and `pytz` are fields of a `TimeLib.TimeLib` value, which every operation receives
as a parameter. `TimeLib.zones` is the order in which `set(pytz.all_timezones_set)`
is iterated. The clock reading `utcnow()` is a parameter `now`. Every Python
exception the code can raise is a `Failures.Failure`, raised at the same point
of evaluation as in the source. No record exists after one.

Where the code differs from what a reader might expect, the model follows the code:

- The partition key is the literal text `created_at`, not the record's
  `created_at` value (`put_tweet_to_kinesis` default at
  `send_to_kinesis.py:169`; `on_data` passes none).
- The record's `created_at` is always the converted `timestamp_ms`. The fallback
  to `meta.created_at` at `send_to_kinesis.py:164-165` never fires
  (`Normaliser.CreateTweetForKinesis`).
- A tweet without `entities` raises `KeyError('entities')`; one whose `entities`
  is not a dict raises `TypeError`; one whose `entities` has no `hashtags` raises
  `KeyError('hashtags')`. None of them gets an empty list (`Normaliser.Hashtags`),
  so no record is made (`Normaliser.MissingRequiredKeyFails`).
- A `time_zone` that is not a string (JSON `null`) raises `TypeError` in the
  substring test. It does not take the naive branch (`Zones.GetUserCreated`).
- A matched zone leaves a `datetime` in the record, which `json.dumps` rejects
  (see Findings).

## Model

| member | source | states |
|---|---|---|
| Keywords.Join | send_to_kinesis.py:162 | `','.join(keywords)` starts with the first keyword and, for comma-free keywords, holds exactly one comma per gap; `SplitJoin` and `JoinSplit` pin it down against `Split` |
| Keywords.Split | tweet_daemon.py:57 | `str.split` never returns an empty list; no piece contains the separator; there is one piece more than separators |
| Keywords.SplitJoin | send_to_kinesis.py:161-162 | splitting the comma-joined `meta.keywords` gives the keyword list back when it is non-empty and no keyword contains a comma |
| Keywords.JoinSplit | tweet_daemon.py:57 | joining the pieces of `TWITTER_KEYWORDS.split(',')` with ',' gives the environment string back, for every string |
| Keywords.EmptyListSplitsToOneEmptyKeyword | send_to_kinesis.py:162 | an empty keyword list joins to "", which splits back to one empty keyword, not to the empty list |
| Zones.IsSubstring | send_to_kinesis.py:128 | Python's `time_zone in a` on two strings; `IsSubstringIffOccurs` characterises it |
| Zones.IsSubstringIffOccurs | send_to_kinesis.py:128 | `needle in hay` holds exactly when `needle` occurs at some position of `hay` |
| Zones.MatchingZones | send_to_kinesis.py:128 | a zone name is matched exactly when it contains the label; the first match is the first matching name in iteration order |
| Zones.GetUserCreated | send_to_kinesis.py:127-137 | succeeds exactly when the label can be tested (a str, or no zone names), the time is a str dateutil parses, and pytz localises the parsed wall clock to the first matching zone if any; TypeError when the label is not a str (and a zone exists) or the time is not a str; a library error from the parse or from `localize`; on success a `datetime` exactly when some zone name contains the label, keeping the parsed wall clock in the first matching zone in iteration order at the offset pytz gives; otherwise the naive isoformat string, with any parsed tzinfo dropped |
| Zones.UserCreatedJsonIffNoMatch | send_to_kinesis.py:131-137 | as written, the resolved user time can be JSON-encoded exactly when no zone name contains the label |
| Zones.GetUserCreatedIntended | send_to_kinesis.py:131-137 | corrected `get_user_created`: fails exactly when and as the original does; otherwise the ISO text of a time on the parsed wall clock that carries a zone exactly when some zone name contains the label |
| Zones.UniqueMatchIsChosen | send_to_kinesis.py:128-133 | a label that exactly one zone name contains is always localised to that zone, whatever the iteration order |
| Zones.EmptyLabelAlwaysLocalised | send_to_kinesis.py:128-133 | an empty `time_zone` label matches every zone name, so it always takes the first zone in iteration order |
| Normaliser.CopyKeys | send_to_kinesis.py:144 | the dict comprehension succeeds exactly when every listed key is present; the result holds exactly those keys with the source's values; otherwise KeyError names the first missing key in list order |
| Normaliser.PyInt | send_to_kinesis.py:145 | `int()` of a JSON int is itself; of a bool, 1 or 0; of a str, the number `int` parses from it, or a library error when it parses none; of null, a list or a dict, TypeError |
| Normaliser.UtcCreatedAt | send_to_kinesis.py:145-148 | the record time is the UTC ISO text of `int(timestamp_ms)` milliseconds, and it fails exactly when either step fails: with the error of `int()`, or a library error from the conversion |
| Normaliser.UserFields | send_to_kinesis.py:149 | KeyError when `user` is missing; TypeError when it is not a dict; success exactly when all ten user keys are present, copying them |
| Normaliser.HashtagTexts | send_to_kinesis.py:155 | succeeds exactly when every entry is a dict with `text`; the texts in order, one per entry; otherwise the error of the first bad entry: TypeError for a non-dict, KeyError for a dict without `text` |
| Normaliser.Hashtags | send_to_kinesis.py:155 | KeyError when `entities` or `hashtags` is missing; TypeError when `entities` is not a dict; succeeds exactly when `hashtags` is iterable to dicts with `text`; a list gives its texts, or the error of its first bad entry; an empty list, str or dict gives `[]`; a non-empty str or dict raises TypeError at `el['text']`; null, an int or a bool raises TypeError as not iterable |
| Normaliser.CleanTweet | send_to_kinesis.py:139-157 | a cleaned tweet always has `user` and `hashtags` |
| Normaliser.CleanTweetSucceedsIffWellFormed | send_to_kinesis.py:139-157 | `__clean_tweet` succeeds exactly on tweets that have every required key and value type and whose conversions succeed |
| Normaliser.CleanTweetFirstMissingKey | send_to_kinesis.py:144 | a tweet missing one of the nine top-level keys fails with KeyError for the first missing one, whatever else is wrong |
| Normaliser.CleanTweetKeys | send_to_kinesis.py:144-157 | the cleaned tweet has exactly the nine copied keys plus `user` and `hashtags` |
| Normaliser.CleanTweetCopiesTopLevel | send_to_kinesis.py:144 | every copied top-level field except `created_at` is the tweet's own value |
| Normaliser.CleanTweetCopiesUser | send_to_kinesis.py:149 | `user` has exactly the ten listed keys; all but `created_at` are the tweet user's own values |
| Normaliser.CleanTweetCreatedAt | send_to_kinesis.py:145-148 | `created_at` is replaced by the UTC ISO text derived from `timestamp_ms` alone |
| Normaliser.CleanTweetUserCreated | send_to_kinesis.py:150-153 | the user's `created_at` is `get_user_created` of the user's own `created_at` and `time_zone` |
| Normaliser.CleanTweetHashtags | send_to_kinesis.py:155 | the record's `hashtags` is the list of the extracted texts |
| Normaliser.Meta | send_to_kinesis.py:161-162 | `meta` has exactly the keys `created_at`, `producer` and `keywords`: the processing time as naive ISO text, the producer, and the keywords joined with ','; it is JSON |
| Normaliser.MetaKeywordsRoundTrip | send_to_kinesis.py:161-162 | a non-empty list of comma-free keywords splits back out of `meta.keywords` |
| Normaliser.AddNameAndMeta | send_to_kinesis.py:159-165 | sets `name` and `meta` (processing time, producer, joined keywords) and leaves the other fields alone; a dict without `created_at` gets the processing time |
| Normaliser.CreateTweetForKinesis | send_to_kinesis.py:125-167 | succeeds exactly when `__clean_tweet` does and propagates its exception; the record has exactly the nine copied keys plus `user`, `hashtags`, `name` and `meta`; it is the cleaned tweet with `name` and `meta` added; `name` and `meta` are as given; every other field is the cleaned tweet's, so the `created_at` fallback never fires |
| Normaliser.MissingRequiredKeyFails | send_to_kinesis.py:144-155 | a missing top-level key, user key, `entities`, `hashtags` or hashtag `text` means no record |
| Normaliser.CopyKeysReadsOnlyKeys | send_to_kinesis.py:144 | the comprehension depends only on the listed keys |
| Normaliser.CleanTweetReadsOnlyListedKeys | send_to_kinesis.py:139-157 | tweets that agree on the nine keys, `user` and `entities` normalise to the same outcome |
| Normaliser.HashtagsAreJson | send_to_kinesis.py:155 | the hashtag texts of a JSON tweet are JSON |
| Normaliser.CleanTweetTopLevelJson | send_to_kinesis.py:144-155 | for a JSON tweet, every top-level field of the cleaned tweet but `user` is JSON |
| Normaliser.CleanTweetUserJson | send_to_kinesis.py:149 | for a JSON tweet, every field of the cleaned `user` but `created_at` is JSON |
| Normaliser.CleanTweetJsonBesideUserCreated | send_to_kinesis.py:139-157 | for a JSON tweet, every part of the cleaned tweet is JSON except possibly the user's `created_at` |
| Normaliser.AddNameAndMetaKeepsJson | send_to_kinesis.py:159-165 | adding `name` and `meta` keeps every entry but `user` JSON and leaves `user` alone |
| Normaliser.RecordJsonBesideUserCreated | send_to_kinesis.py:125-167 | for a JSON tweet, every part of the record is JSON except possibly the user's `created_at`, which is the cleaned tweet's |
| Normaliser.RecordHasUser | send_to_kinesis.py:149-150 | every record has a `user` dict |
| Kinesis.PutRecordRequest | send_to_kinesis.py:169-176 | a request is made exactly when `json.dumps` can encode the record; it carries the stream name, the record and the partition key; otherwise TypeError |
| Kinesis.OnDataRequest | send_to_kinesis.py:106-119 | a normalisation error propagates; a request carries the record built with name 'twitter', the listener's stream and the literal partition key `created_at`; once the record is built, a request is made exactly when it is JSON-encodable |
| Kinesis.ZoneMatchBlocksSending | send_to_kinesis.py:131-133 | as written: a JSON tweet that normalises is sent exactly when its user's `time_zone` matches no zone name |
| Kinesis.WithUserCreated | send_to_kinesis.py:150 | replacing the user's `created_at` keeps every key and every other value |
| Kinesis.OnDataIntendedRequest | send_to_kinesis.py:106-119 | with the corrected `get_user_created`: a normalisation error propagates; a request carries the stream name and partition key `created_at` |
| Kinesis.IntendedRequestAlwaysBuilt | send_to_kinesis.py:131-137 | with the correction, every JSON tweet that normalises is sent: the request is the record built as written, with the user's `created_at` replaced by the ISO text |
| Kinesis.SendTweetsToKinesis.constructor | send_to_kinesis.py:92-104 | the listener keeps the stream name, producer and keywords it was given |
| Kinesis.SendTweetsToKinesis.OnData | send_to_kinesis.py:106-119 | `on_data` makes the request `OnDataRequest` describes: the listener's stream and partition key `created_at` |
| Kinesis.SendTweetsToKinesis.OnError | send_to_kinesis.py:121-123 | `on_error` always returns true, so the stream keeps running |
| Kinesis.SendTweetsToKinesis.PutTweetToKinesis | send_to_kinesis.py:169-176 | the `put_record` arguments are built exactly when the record is JSON-encodable; otherwise TypeError |

## Left out

- The `put_record` network call, boto3 session and client settings, and the response: the model stops at the call's arguments. A transport fault is not modelled.
- The JSON text itself: `json.loads` is replaced by its decoded `Value`, and `json.dumps` by the `IsJson` test. Raw data that is not a JSON object, and floats, are not modelled.
- The internals of `int` on strings, `datetime.fromtimestamp`/`astimezone`/`isoformat`, `dateutil.parser.parse` and `pytz` localisation: they are parameters (`TimeLib`). Any library exception, such as an ambiguous or non-existent local time under `is_dst=None`, is a `LibraryError`.
- The iteration order of `set(pytz.all_timezones_set)` is a parameter. When several zones match, the choice among them is only as determined as that order.
- Dict key order and the text layout of the encoded record.
- Logging (`logger.info`, `logger.debug`, `logger.error`): it has no effect on the result.
- `StdOutListener`, `TweetsCollector`, the stream connection, credential loading and the daemon in `tweet_daemon.py`, apart from the keyword split at line 57.
- The default `producer='stream_to_stream'` of `create_tweet_for_kinesis` (send_to_kinesis.py:126): the only caller, `on_data`, always passes the listener's producer, so the model takes the producer as an argument and has no default.
- Normaliser.CleanTweet: its own contract only says which keys are present; the per-field content is stated by the `CleanTweet…` lemmas beside it.

## Findings

| source | as written | input that shows it | evidently intended | confidence | as-written member | corrected member |
|---|---|---|---|---|---|---|
| send_to_kinesis.py:131-137 | when a zone name contains the user's `time_zone`, `get_user_created` returns a localised `datetime`; `json.dumps` at line 172 then raises TypeError, so the tweet is never sent | any well-formed tweet whose user has `"time_zone": "London"` (matches `Europe/London`) | return `user_created_time.isoformat()`, an ISO string with the UTC offset, as the naive branch does | not executed | Kinesis.ZoneMatchBlocksSending | Kinesis.IntendedRequestAlwaysBuilt |

=== FILE: failures.dfy ===
/** The exceptions normalisation and delivery can raise, by the expression
    that raises them. */
module Failures {

  /** Where in the code an exception is raised. */
  datatype Site =
    | TimestampInt       // int(clean['timestamp_ms'])
    | TimestampConvert   // fromtimestamp(... / 1000).astimezone(pytz.utc)
    | UserIndex          // tweet['user'][a] when 'user' is not a dict
    | ZoneMatch          // time_zone in a, when time_zone is not a str
    | UserCreatedParse   // dateutil's parse(user_created)
    | Localize           // localize(parsed_time, is_dst=None)
    | EntitiesIndex      // tweet['entities']['hashtags'] when 'entities' is not a dict
    | HashtagsIter       // for el in ...: when 'hashtags' is not iterable
    | HashtagIndex       // el['text'] when el is not a dict
    | JsonEncode         // json.dumps(tweet)

  datatype Failure =
    | KeyError(key: string)       // a dict has no such key
    | TypeError(site: Site)       // an operation on a value of the wrong type
    | LibraryError(site: Site)    // raised inside a library call
}

=== FILE: keywords.dfy ===
/** The keyword list travels as one comma-joined string: the daemon splits
    `TWITTER_KEYWORDS` on ',' and the normaliser joins the list with ',' into
    `meta.keywords`. */
module Keywords {

  /** `sep.join(parts)`: the parts in order with one separator between
      neighbours, so separator-free parts leave exactly the gaps as
      separators. */
  function Join(parts: seq<string>, sep: char): (r: string)
    ensures |parts| > 0 ==> parts[0] <= r
    ensures |parts| > 0 && (forall i | 0 <= i < |parts| :: sep !in parts[i]) ==> Count(r, sep) == |parts| - 1
  {
    if |parts| == 0 then ""
    else if |parts| == 1 then CountAbsent(parts[0], sep); parts[0]
    else
      var rest := Join(parts[1..], sep);
      CountAppend(parts[0] + [sep], rest, sep);
      CountAppend(parts[0], [sep], sep);
      CountAbsent(parts[0], sep);
      assert forall i | 0 <= i < |parts[1..]| :: parts[1..][i] == parts[i + 1];
      parts[0] + [sep] + rest
  }

  /** `s.split(sep)`: never empty, and no piece holds the separator. */
  function Split(s: string, sep: char): (parts: seq<string>)
    ensures |parts| >= 1
    ensures forall i | 0 <= i < |parts| :: sep !in parts[i]
    ensures |parts| == Count(s, sep) + 1
  {
    if |s| == 0 then [""]
    else if s[0] == sep then [""] + Split(s[1..], sep)
    else
      var rest := Split(s[1..], sep);
      [[s[0]] + rest[0]] + rest[1..]
  }

  /** Number of occurrences of `c` in `s`. */
  function Count(s: string, c: char): nat
  {
    if |s| == 0 then 0 else (if s[0] == c then 1 else 0) + Count(s[1..], c)
  }

  /** Counting is additive over concatenation. */
  lemma {:induction false} CountAppend(a: string, b: string, c: char)
    ensures Count(a + b, c) == Count(a, c) + Count(b, c)
  {
    if |a| > 0 {
      CountAppend(a[1..], b, c);
      assert (a + b)[1..] == a[1..] + b;
    } else {
      assert a + b == b;
    }
  }

  /** A string counts no `c` exactly when it holds none. */
  lemma {:induction false} CountAbsent(s: string, c: char)
    ensures c !in s <==> Count(s, c) == 0
  {
    if |s| > 0 {
      CountAbsent(s[1..], c);
    }
  }

  /** A piece without the separator splits to itself. */
  lemma {:induction false} SplitPlain(w: string, sep: char)
    requires sep !in w
    ensures Split(w, sep) == [w]
  {
    if |w| > 0 {
      SplitPlain(w[1..], sep);
      assert [w[0]] + w[1..] == w;
    }
  }

  /** Splitting at the first separator peels off the piece before it. */
  lemma {:induction false} SplitFirst(w: string, sep: char, t: string)
    requires sep !in w
    ensures Split(w + [sep] + t, sep) == [w] + Split(t, sep)
  {
    if |w| == 0 {
      assert w + [sep] + t == [sep] + t;
      assert ([sep] + t)[1..] == t;
    } else {
      SplitFirst(w[1..], sep, t);
      assert (w + [sep] + t)[1..] == w[1..] + [sep] + t;
      assert [w[0]] + w[1..] == w;
    }
  }

  /** Splitting the joined keywords gives the list back, provided it is not
      empty and no keyword holds the separator. */
  lemma {:induction false} SplitJoin(parts: seq<string>, sep: char)
    requires |parts| > 0
    requires forall i | 0 <= i < |parts| :: sep !in parts[i]
    ensures Split(Join(parts, sep), sep) == parts
  {
    if |parts| == 1 {
      SplitPlain(parts[0], sep);
    } else {
      SplitJoin(parts[1..], sep);
      SplitFirst(parts[0], sep, Join(parts[1..], sep));
      assert [parts[0]] + parts[1..] == parts;
    }
  }

  /** Joining the pieces of a split gives the string back, for every string. */
  lemma {:induction false} JoinSplit(s: string, sep: char)
    ensures Join(Split(s, sep), sep) == s
  {
    if |s| > 0 {
      JoinSplit(s[1..], sep);
      var rest := Split(s[1..], sep);
      if s[0] == sep {
        assert Split(s, sep)[1..] == rest;
      } else {
        var parts := Split(s, sep);
        assert parts[1..] == rest[1..];
        if |rest| == 1 {
          assert s == [s[0]] + s[1..];
        } else {
          assert rest == [rest[0]] + rest[1..];
          assert Join(rest, sep) == rest[0] + [sep] + Join(rest[1..], sep);
          assert s == [s[0]] + s[1..];
        }
      }
    }
  }

  /** The empty keyword list does not survive: it joins to "", which splits to
      one empty keyword. */
  lemma EmptyListSplitsToOneEmptyKeyword(sep: char)
    ensures Join([], sep) == ""
    ensures Split(Join([], sep), sep) == [""]
  {
  }
}

=== FILE: kinesis.dfy ===
/** `SendTweetsToKinesis`: the stream listener that normalises each tweet and
    hands it to `kinesis.put_record`. The model stops at the arguments of
    that call. */
module Kinesis {
  import opened Wrappers
  import opened Values
  import opened TimeLib
  import opened Failures
  import opened Zones
  import opened Normaliser

  /** The arguments of one `put_record` call; `data` is the value that
      `json.dumps` turns into the `Data` text. */
  datatype Request = Request(streamName: string, data: Value, partitionKey: string)

  /** The default `partition_key`: the literal text, not the record's time. */
  const DefaultPartitionKey := "created_at"

  /** The request `put_tweet_to_kinesis` sends: `json.dumps` raises on a
      record holding a `datetime`, before anything is sent. */
  function PutRecordRequest(streamName: string, tweet: Value, partitionKey: string): (r: Result<Request, Failure>)
    ensures r.Success? <==> IsJson(tweet)
    ensures r.Success? ==> r.value.streamName == streamName && r.value.data == tweet
                           && r.value.partitionKey == partitionKey
    ensures r.Failure? ==> r.error == TypeError(JsonEncode)
  {
    if IsJson(tweet) then Success(Request(streamName, tweet, partitionKey))
    else Failure(TypeError(JsonEncode))
  }

  /** What `on_data` sends for one decoded tweet: the normalised record under
      the default partition key, or the exception that stops it. */
  function OnDataRequest(lib: TimeLib, now: Wall, tweet: map<string, Value>,
                         streamName: string, producer: string, keywords: seq<string>): (r: Result<Request, Failure>)
    ensures CreateTweetForKinesis(lib, now, tweet, keywords, DefaultName, producer).Failure? ==>
              r == Failure(CreateTweetForKinesis(lib, now, tweet, keywords, DefaultName, producer).error)
    ensures r.Success? ==>
              && CreateTweetForKinesis(lib, now, tweet, keywords, DefaultName, producer).Success?
              && r.value.data == Dict(CreateTweetForKinesis(lib, now, tweet, keywords, DefaultName, producer).value)
              && r.value.streamName == streamName
              && r.value.partitionKey == "created_at"
    // once the record is built, only its JSON encoding can fail
    ensures CreateTweetForKinesis(lib, now, tweet, keywords, DefaultName, producer).Success? ==>
              (r.Success? <==> IsJson(Dict(CreateTweetForKinesis(lib, now, tweet, keywords, DefaultName, producer).value)))
  {
    var record :- CreateTweetForKinesis(lib, now, tweet, keywords, DefaultName, producer);
    PutRecordRequest(streamName, Dict(record), DefaultPartitionKey)
  }

  /** As written, a JSON tweet whose normalisation succeeds is sent exactly
      when its user's `time_zone` matches no zone name: a match leaves a
      `datetime` in the record, and `json.dumps` rejects it. */
  lemma ZoneMatchBlocksSending(lib: TimeLib, now: Wall, tweet: map<string, Value>,
                               streamName: string, producer: string, keywords: seq<string>)
    requires IsJson(Dict(tweet))
    requires CreateTweetForKinesis(lib, now, tweet, keywords, DefaultName, producer).Success?
    ensures "user" in tweet && tweet["user"].Dict? && "time_zone" in tweet["user"].fields
    ensures var tz := tweet["user"].fields["time_zone"];
            OnDataRequest(lib, now, tweet, streamName, producer, keywords).Success?
            <==> !(tz.Str? && exists z :: z in lib.zones && IsSubstring(tz.str, z))
  {
    var rec := CreateTweetForKinesis(lib, now, tweet, keywords, DefaultName, producer).value;
    RecordJsonBesideUserCreated(lib, now, tweet, keywords, DefaultName, producer);
    CleanTweetUserCreated(lib, tweet);
    var user := tweet["user"].fields;
    UserCreatedJsonIffNoMatch(lib, user["created_at"], user["time_zone"]);
    DictJsonIffEntry(rec, "user");
    DictJsonIffEntry(rec["user"].fields, "created_at");
  }

  /** A dict whose other entries are JSON is JSON exactly when the one
      remaining entry is. */
  lemma DictJsonIffEntry(m: map<string, Value>, key: string)
    requires key in m
    requires forall k | k in m && k != key :: IsJson(m[k])
    ensures IsJson(Dict(m)) <==> IsJson(m[key])
  {
  }

  /** The record with the user's `created_at` replaced by the string
      `created`; nothing else changes. */
  function WithUserCreated(rec: Record, created: string): (r: Record)
    requires "user" in rec && rec["user"].Dict?
    ensures r.Keys == rec.Keys
    ensures forall k | k in rec && k != "user" :: r[k] == rec[k]
    ensures r["user"].Dict? && r["user"].fields.Keys == rec["user"].fields.Keys + {"created_at"}
    ensures forall k | k in rec["user"].fields && k != "created_at" :: r["user"].fields[k] == rec["user"].fields[k]
    ensures r["user"].fields["created_at"] == Str(created)
  {
    rec["user" := Dict(rec["user"].fields["created_at" := Str(created)])]
  }

  /** `on_data` with the evidently intended `get_user_created`: the user's
      `created_at` becomes the ISO string of the localised time. */
  function OnDataIntendedRequest(lib: TimeLib, now: Wall, tweet: map<string, Value>,
                                 streamName: string, producer: string, keywords: seq<string>)
    : (r: Result<Request, Failure>)
    ensures CreateTweetForKinesis(lib, now, tweet, keywords, DefaultName, producer).Failure? ==>
              r == Failure(CreateTweetForKinesis(lib, now, tweet, keywords, DefaultName, producer).error)
    ensures r.Success? ==> r.value.streamName == streamName && r.value.partitionKey == "created_at"
  {
    var record :- CreateTweetForKinesis(lib, now, tweet, keywords, DefaultName, producer);
    CleanTweetUserCreated(lib, tweet);
    RecordHasUser(lib, now, tweet, keywords, DefaultName, producer);
    var created := GetUserCreatedIntended(lib, tweet["user"].fields["created_at"], tweet["user"].fields["time_zone"]);
    PutRecordRequest(streamName, Dict(WithUserCreated(record, created.value)), DefaultPartitionKey)
  }

  /** With the correction, every JSON tweet that normalises is sent: the
      request carries the record built as written with the user's
      `created_at` replaced by the intended string. */
  lemma IntendedRequestAlwaysBuilt(lib: TimeLib, now: Wall, tweet: map<string, Value>,
                                   streamName: string, producer: string, keywords: seq<string>)
    requires IsJson(Dict(tweet))
    requires CreateTweetForKinesis(lib, now, tweet, keywords, DefaultName, producer).Success?
    ensures "user" in tweet && tweet["user"].Dict?
    ensures "created_at" in tweet["user"].fields && "time_zone" in tweet["user"].fields
    ensures GetUserCreatedIntended(lib, tweet["user"].fields["created_at"], tweet["user"].fields["time_zone"]).Success?
    ensures var rec := CreateTweetForKinesis(lib, now, tweet, keywords, DefaultName, producer).value;
            var created := GetUserCreatedIntended(lib, tweet["user"].fields["created_at"],
                                                  tweet["user"].fields["time_zone"]).value;
            "user" in rec && rec["user"].Dict?
            && OnDataIntendedRequest(lib, now, tweet, streamName, producer, keywords)
               == Success(Request(streamName, Dict(WithUserCreated(rec, created)), "created_at"))
  {
    var rec := CreateTweetForKinesis(lib, now, tweet, keywords, DefaultName, producer).value;
    RecordJsonBesideUserCreated(lib, now, tweet, keywords, DefaultName, producer);
    CleanTweetUserCreated(lib, tweet);
    var created := GetUserCreatedIntended(lib, tweet["user"].fields["created_at"], tweet["user"].fields["time_zone"]);
    var fixedRecord := WithUserCreated(rec, created.value);
    DictJsonIffEntry(fixedRecord["user"].fields, "created_at");
    DictJsonIffEntry(fixedRecord, "user");
  }

  /** The listener; its fields are set once, in `__init__`. The boto3
      client it also builds is not part of the model. */
  class SendTweetsToKinesis {
    const streamName: string
    const producer: string
    const keywords: seq<string>

    constructor (streamName: string, producer: string, keywords: seq<string>)
      ensures this.streamName == streamName && this.producer == producer && this.keywords == keywords
    {
      this.streamName := streamName;
      this.producer := producer;
      this.keywords := keywords;
    }

    /** `on_data` after `json.loads`: normalise with name 'twitter' and this
        listener's producer and keywords, then build the request. An
        exception propagates: no request is made. */
    method OnData(lib: TimeLib, now: Wall, tweet: map<string, Value>) returns (r: Result<Request, Failure>)
      ensures r == OnDataRequest(lib, now, tweet, streamName, producer, keywords)
      ensures r.Success? ==> r.value.streamName == streamName && r.value.partitionKey == DefaultPartitionKey
    {
      var record := CreateTweetForKinesis(lib, now, tweet, keywords, DefaultName, producer);
      if record.Failure? {
        return Failure(record.error);
      }
      r := PutTweetToKinesis(streamName, Dict(record.value), DefaultPartitionKey);
    }

    /** `on_error`: after logging, always asks the stream to keep running. */
    method OnError(status: int) returns (keepStreaming: bool)
      ensures keepStreaming
    {
      keepStreaming := true;
    }

    /** `put_tweet_to_kinesis`: the request handed to `put_record`. */
    method PutTweetToKinesis(streamName: string, tweet: Value, partitionKey: string) returns (r: Result<Request, Failure>)
      ensures r.Success? <==> IsJson(tweet)
      ensures r.Success? ==> r.value == Request(streamName, tweet, partitionKey)
      ensures r.Failure? ==> r.error == TypeError(JsonEncode)
    {
      r := PutRecordRequest(streamName, tweet, partitionKey);
    }
  }
}

=== FILE: normaliser.dfy ===
/** `SendTweetsToKinesis.create_tweet_for_kinesis`: one decoded tweet becomes
    one flat record with derived timestamps, hashtag texts, a name and a meta
    block. Every Python exception on the way is a `Failure`, and no record is
    produced. */
module Normaliser {
  import opened Wrappers
  import opened Values
  import opened TimeLib
  import opened Failures
  import opened Zones
  import Keywords

  type Record = map<string, Value>

  /** The top-level keys copied from the tweet (`attrs`). */
  const Attrs: seq<string> :=
    ["created_at", "lang", "geo", "coordinates", "place", "retweeted", "source", "text", "timestamp_ms"]

  /** The keys copied from `tweet['user']` (`user_attrs`). */
  const UserAttrs: seq<string> :=
    ["name", "screen_name", "location", "url", "description",
     "followers_count", "created_at", "utc_offset", "time_zone", "lang"]

  /** The keys listed in `keys`. */
  function KeySet(keys: seq<string>): set<string>
  {
    set i | 0 <= i < |keys| :: keys[i]
  }

  /** The keys of every record: the copied ones and the four it adds. */
  const RecordKeys: set<string> := KeySet(Attrs) + {"user", "hashtags", "name", "meta"}

  /** The `name` that `on_data` passes. */
  const DefaultName := "twitter"

  /** `{a: src[a] for a in keys}`: the first missing key, in list order,
      raises `KeyError`. */
  function CopyKeys(src: map<string, Value>, keys: seq<string>): (r: Result<Record, Failure>)
    ensures r.Success? <==> forall i | 0 <= i < |keys| :: keys[i] in src
    ensures r.Success? ==> r.value.Keys == KeySet(keys)
    ensures r.Success? ==> forall i | 0 <= i < |keys| :: keys[i] in r.value
    ensures r.Success? ==> forall k | k in r.value :: k in src && r.value[k] == src[k]
    ensures r.Failure? ==> exists i :: 0 <= i < |keys| && keys[i] !in src && r.error == KeyError(keys[i])
                             && forall j | 0 <= j < i :: keys[j] in src
  {
    if |keys| == 0 then Success(map[])
    else if keys[0] !in src then Failure(KeyError(keys[0]))
    else
      var rest :- CopyKeys(src, keys[1..]);
      assert forall i | 0 <= i < |keys[1..]| :: keys[1..][i] == keys[i + 1];
      assert forall i | 0 < i < |keys| :: keys[i] == keys[1..][i - 1];
      Success(rest[keys[0] := src[keys[0]]])
  }

  /** `int(v)` for a decoded JSON value. */
  function PyInt(lib: TimeLib, v: Value): (r: Result<int, Failure>)
    ensures v.Int? ==> r == Success(v.number)
    // `bool` is a subclass of `int`: `int(True) == 1`
    ensures v.Bool? ==> r == Success(if v.boolean then 1 else 0)
    // a str holds whatever `int` parses from it, or raises
    ensures v.Str? ==> r.Success? == lib.intOfString(v.str).Some?
    ensures v.Str? && r.Success? ==> r.value == lib.intOfString(v.str).value
    ensures v.Str? && r.Failure? ==> r.error == LibraryError(TimestampInt)
    // null, a list or a dict cannot be converted
    ensures !(v.Int? || v.Bool? || v.Str?) ==> r == Failure(TypeError(TimestampInt))
  {
    match v
    case Int(n) => Success(n)
    case Bool(b) => Success(if b then 1 else 0)
    case Str(s) =>
      (match lib.intOfString(s)
       case Some(n) => Success(n)
       case None => Failure(LibraryError(TimestampInt)))
    case _ => Failure(TypeError(TimestampInt))
  }

  /** The record's `created_at`: the UTC ISO string of the epoch milliseconds. */
  function UtcCreatedAt(lib: TimeLib, timestampMs: Value): (r: Result<string, Failure>)
    ensures r.Success? <==> PyInt(lib, timestampMs).Success?
                            && lib.utcIsoFromMillis(PyInt(lib, timestampMs).value).Some?
    ensures r.Success? ==> r.value == lib.utcIsoFromMillis(PyInt(lib, timestampMs).value).value
    // `int()` raises first; otherwise the conversion may
    ensures PyInt(lib, timestampMs).Failure? ==> r == Failure(PyInt(lib, timestampMs).error)
    ensures PyInt(lib, timestampMs).Success? && lib.utcIsoFromMillis(PyInt(lib, timestampMs).value).None? ==>
              r == Failure(LibraryError(TimestampConvert))
  {
    var ms :- PyInt(lib, timestampMs);
    match lib.utcIsoFromMillis(ms)
    case None => Failure(LibraryError(TimestampConvert))
    case Some(iso) => Success(iso)
  }

  /** `{a: tweet['user'][a] for a in user_attrs}`. */
  function UserFields(tweet: map<string, Value>): (r: Result<Record, Failure>)
    ensures "user" !in tweet ==> r == Failure(KeyError("user"))
    ensures r.Success? <==> "user" in tweet && tweet["user"].Dict?
                            && forall i | 0 <= i < |UserAttrs| :: UserAttrs[i] in tweet["user"].fields
    ensures r.Success? ==> "user" in tweet && tweet["user"].Dict?
                           && r == CopyKeys(tweet["user"].fields, UserAttrs)
    ensures "user" in tweet && !tweet["user"].Dict? ==> r == Failure(TypeError(UserIndex))
  {
    if "user" !in tweet then Failure(KeyError("user"))
    else match tweet["user"]
      case Dict(user) => CopyKeys(user, UserAttrs)
      case _ => Failure(TypeError(UserIndex))
  }

  /** `[el['text'] for el in tags]` over a list: the texts in order; the first
      entry that is not a dict, or has no `text`, raises. */
  function HashtagTexts(tags: seq<Value>): (r: Result<seq<Value>, Failure>)
    ensures r.Success? <==> forall i | 0 <= i < |tags| :: tags[i].Dict? && "text" in tags[i].fields
    ensures r.Success? ==> |r.value| == |tags|
                           && forall i | 0 <= i < |tags| :: r.value[i] == tags[i].fields["text"]
    // the comprehension stops at the first bad entry
    ensures r.Failure? ==> exists i :: 0 <= i < |tags| && !(tags[i].Dict? && "text" in tags[i].fields)
                             && (forall j | 0 <= j < i :: tags[j].Dict? && "text" in tags[j].fields)
                             && r.error == (if tags[i].Dict? then KeyError("text") else TypeError(HashtagIndex))
  {
    if |tags| == 0 then Success([])
    else if !tags[0].Dict? then Failure(TypeError(HashtagIndex))
    else if "text" !in tags[0].fields then Failure(KeyError("text"))
    else
      var rest :- HashtagTexts(tags[1..]);
      assert forall i | 0 < i < |tags| :: tags[i] == tags[1..][i - 1];
      Success([tags[0].fields["text"]] + rest)
  }

  /** `[el['text'] for el in tweet['entities']['hashtags']]`. Iterating an
      empty str or dict yields nothing; a non-empty one yields strings, which
      `el['text']` rejects. */
  function Hashtags(tweet: map<string, Value>): (r: Result<seq<Value>, Failure>)
    ensures "entities" !in tweet ==> r == Failure(KeyError("entities"))
    ensures "entities" in tweet && !tweet["entities"].Dict? ==> r == Failure(TypeError(EntitiesIndex))
    ensures "entities" in tweet && tweet["entities"].Dict? && "hashtags" !in tweet["entities"].fields ==>
              r == Failure(KeyError("hashtags"))
    ensures r.Success? <==> "entities" in tweet && tweet["entities"].Dict?
                            && "hashtags" in tweet["entities"].fields
                            && HashtagsIterable(tweet["entities"].fields["hashtags"])
    ensures r.Success? ==> "entities" in tweet && tweet["entities"].Dict?
                           && "hashtags" in tweet["entities"].fields
    ensures "entities" in tweet && tweet["entities"].Dict? && "hashtags" in tweet["entities"].fields
            && tweet["entities"].fields["hashtags"].List? ==>
              r == HashtagTexts(tweet["entities"].fields["hashtags"].items)
    // a non-empty str or dict iterates to strs, which `el['text']` rejects;
    // null, an int or a bool cannot be iterated
    ensures "entities" in tweet && tweet["entities"].Dict? && "hashtags" in tweet["entities"].fields
            && !tweet["entities"].fields["hashtags"].List?
            && !HashtagsIterable(tweet["entities"].fields["hashtags"]) ==>
              r == Failure(if tweet["entities"].fields["hashtags"].Str? || tweet["entities"].fields["hashtags"].Dict?
                           then TypeError(HashtagIndex) else TypeError(HashtagsIter))
    ensures r.Success? && !tweet["entities"].fields["hashtags"].List? ==> r.value == []
    ensures ("entities" in tweet && tweet["entities"].Dict? && "hashtags" in tweet["entities"].fields
             && tweet["entities"].fields["hashtags"] == List([])) ==> r == Success([])
  {
    if "entities" !in tweet then Failure(KeyError("entities"))
    else match tweet["entities"]
      case Dict(entities) =>
        if "hashtags" !in entities then Failure(KeyError("hashtags"))
        else
          (match entities["hashtags"]
           case List(tags) => HashtagTexts(tags)
           case Dict(m) => if m == map[] then Success([]) else Failure(TypeError(HashtagIndex))
           case Str(s) => if s == "" then Success([]) else Failure(TypeError(HashtagIndex))
           case _ => Failure(TypeError(HashtagsIter)))
      case _ => Failure(TypeError(EntitiesIndex))
  }

  /** What `entities.hashtags` must be for the hashtag comprehension to
      succeed: a list of dicts that all have `text`, or an empty str or dict. */
  predicate HashtagsIterable(v: Value)
  {
    match v
    case List(tags) => forall i | 0 <= i < |tags| :: tags[i].Dict? && "text" in tags[i].fields
    case Dict(m) => m == map[]
    case Str(s) => s == ""
    case _ => false
  }

  /** Everything `__clean_tweet` needs of a tweet: the keys present, the
      values of the right types, and the library calls not raising. */
  predicate WellFormed(lib: TimeLib, tweet: map<string, Value>)
  {
    && (forall i | 0 <= i < |Attrs| :: Attrs[i] in tweet)
    && assert Attrs[8] == "timestamp_ms";
       UtcCreatedAt(lib, tweet["timestamp_ms"]).Success?
    && "user" in tweet && tweet["user"].Dict?
    && (forall i | 0 <= i < |UserAttrs| :: UserAttrs[i] in tweet["user"].fields)
    && assert UserAttrs[6] == "created_at" && UserAttrs[8] == "time_zone";
       GetUserCreated(lib, tweet["user"].fields["created_at"], tweet["user"].fields["time_zone"]).Success?
    && "entities" in tweet && tweet["entities"].Dict?
    && "hashtags" in tweet["entities"].fields
    && HashtagsIterable(tweet["entities"].fields["hashtags"])
  }

  /** `__clean_tweet`: copy, derive `created_at`, copy and resolve the user,
      extract hashtags, in that order. */
  function CleanTweet(lib: TimeLib, tweet: map<string, Value>): (r: Result<Record, Failure>)
    ensures r.Success? ==> r.value.Keys >= {"user", "hashtags"}
  {
    var clean :- CopyKeys(tweet, Attrs);
    assert Attrs[8] == "timestamp_ms";
    var createdAt :- UtcCreatedAt(lib, clean["timestamp_ms"]);
    var user :- UserFields(tweet);
    assert UserAttrs[6] == "created_at" && UserAttrs[8] == "time_zone";
    var userCreated :- GetUserCreated(lib, user["created_at"], user["time_zone"]);
    var hashtags :- Hashtags(tweet);
    Success(clean["created_at" := Str(createdAt)]
                 ["user" := Dict(user["created_at" := userCreated])]
                 ["hashtags" := List(hashtags)])
  }

  /** The `meta` block: the processing time as naive ISO text, the producer,
      and the keywords joined with ','. */
  function Meta(lib: TimeLib, now: Wall, producer: string, keywords: seq<string>): (m: Value)
    ensures m.Dict? && m.fields.Keys == {"created_at", "producer", "keywords"}
    ensures m.fields["created_at"] == Str(lib.isoformat(DateTime(now, None)))
    ensures m.fields["producer"] == Str(producer)
    ensures m.fields["keywords"] == Str(Keywords.Join(keywords, ','))
    ensures IsJson(m)
  {
    Dict(map["created_at" := Str(lib.isoformat(DateTime(now, None))),
             "producer" := Str(producer),
             "keywords" := Str(Keywords.Join(keywords, ','))])
  }

  /** A non-empty list of comma-free keywords can be split back out of
      `meta.keywords`. */
  lemma MetaKeywordsRoundTrip(lib: TimeLib, now: Wall, producer: string, keywords: seq<string>)
    requires |keywords| > 0
    requires forall i | 0 <= i < |keywords| :: ',' !in keywords[i]
    ensures Keywords.Split(Meta(lib, now, producer, keywords).fields["keywords"].str, ',') == keywords
  {
    Keywords.SplitJoin(keywords, ',');
  }

  /** The last steps of `create_tweet_for_kinesis` on any dict: set `name`
      and `meta`, then fall back to the processing time when `created_at`
      is missing. */
  function AddNameAndMeta(clean: Record, lib: TimeLib, now: Wall, name: string, producer: string,
                          keywords: seq<string>): (r: Record)
    ensures r.Keys == clean.Keys + {"name", "meta", "created_at"}
    ensures r["name"] == Str(name) && r["meta"] == Meta(lib, now, producer, keywords)
    ensures forall k | k in clean && k != "name" && k != "meta" :: r[k] == clean[k]
    ensures "created_at" !in clean ==> r["created_at"] == Str(lib.isoformat(DateTime(now, None)))
  {
    var record := clean["name" := Str(name)]["meta" := Meta(lib, now, producer, keywords)];
    if "created_at" !in record then record["created_at" := record["meta"].fields["created_at"]]
    else record
  }

  /** `create_tweet_for_kinesis(tweet, keywords, name, producer)` with the
      clock reading `now` standing for `utcnow()`. */
  function CreateTweetForKinesis(lib: TimeLib, now: Wall, tweet: map<string, Value>,
                                 keywords: seq<string>, name: string, producer: string): (r: Result<Record, Failure>)
    ensures r.Success? <==> CleanTweet(lib, tweet).Success?
    // an exception in __clean_tweet propagates unchanged; no record is made
    ensures r.Failure? ==> CleanTweet(lib, tweet) == Failure(r.error)
    ensures r.Success? ==> r.value.Keys == RecordKeys
    ensures r.Success? ==> r.value["name"] == Str(name)
    // the record is the cleaned tweet with `name` and `meta` added
    ensures r.Success? ==> r.value == AddNameAndMeta(CleanTweet(lib, tweet).value, lib, now, name, producer, keywords)
    ensures r.Success? ==> r.value["meta"] == Meta(lib, now, producer, keywords)
    // every other field, created_at included, is the cleaned tweet's: the
    // fallback to the processing time never fires
    ensures r.Success? ==> forall k | k in r.value && k != "name" && k != "meta" ::
              k in CleanTweet(lib, tweet).value && r.value[k] == CleanTweet(lib, tweet).value[k]
  {
    match CleanTweet(lib, tweet)
    case Failure(e) => Failure(e)
    case Success(clean) =>
      CleanTweetKeys(lib, tweet);
      KeyFacts();
      var r := AddNameAndMeta(clean, lib, now, name, producer, keywords);
      assert r.Keys == RecordKeys;
      Success(r)
  }

  /** Normalisation succeeds exactly on well-formed tweets. */
  lemma CleanTweetSucceedsIffWellFormed(lib: TimeLib, tweet: map<string, Value>)
    ensures CleanTweet(lib, tweet).Success? <==> WellFormed(lib, tweet)
  {
    assert Attrs[8] == "timestamp_ms";
    assert UserAttrs[6] == "created_at" && UserAttrs[8] == "time_zone";
    var clean := CopyKeys(tweet, Attrs);
    if clean.Success? {
      assert clean.value["timestamp_ms"] == tweet["timestamp_ms"];
      var user := UserFields(tweet);
      if user.Success? {
        assert user.value["created_at"] == tweet["user"].fields["created_at"];
        assert user.value["time_zone"] == tweet["user"].fields["time_zone"];
      }
    }
  }

  /** Facts about the listed keys that the lemmas below share. */
  lemma KeyFacts()
    ensures "user" !in KeySet(Attrs) && "hashtags" !in KeySet(Attrs)
    ensures "name" !in KeySet(Attrs) && "meta" !in KeySet(Attrs)
    ensures "created_at" in KeySet(Attrs) && "timestamp_ms" in KeySet(Attrs)
    ensures "created_at" in KeySet(UserAttrs) && "time_zone" in KeySet(UserAttrs)
  {
    assert Attrs[0] == "created_at" && Attrs[8] == "timestamp_ms";
    assert UserAttrs[6] == "created_at" && UserAttrs[8] == "time_zone";
  }

  /** The top-level copy runs first, so a tweet missing one of the nine keys
      fails with `KeyError` for the first missing one, whatever else is wrong. */
  lemma CleanTweetFirstMissingKey(lib: TimeLib, tweet: map<string, Value>, i: nat)
    requires i < |Attrs| && Attrs[i] !in tweet
    requires forall j | 0 <= j < i :: Attrs[j] in tweet
    ensures CleanTweet(lib, tweet) == Failure(KeyError(Attrs[i]))
  {
    var c := CopyKeys(tweet, Attrs);
    assert c.Failure?;
    var k :| 0 <= k < |Attrs| && Attrs[k] !in tweet && c.error == KeyError(Attrs[k])
             && forall j | 0 <= j < k :: Attrs[j] in tweet;
    assert k == i;
  }

  /** A successful clean is the copied fields with `created_at` replaced,
      `user` added with its `created_at` resolved, and `hashtags` added: every
      step on the way succeeded. */
  lemma CleanTweetSteps(lib: TimeLib, tweet: map<string, Value>)
    requires CleanTweet(lib, tweet).Success?
    ensures CopyKeys(tweet, Attrs).Success?
    ensures "timestamp_ms" in tweet && UtcCreatedAt(lib, tweet["timestamp_ms"]).Success?
    ensures UserFields(tweet).Success?
    ensures "user" in tweet && tweet["user"].Dict?
    ensures "created_at" in tweet["user"].fields && "time_zone" in tweet["user"].fields
    ensures GetUserCreated(lib, tweet["user"].fields["created_at"], tweet["user"].fields["time_zone"]).Success?
    ensures Hashtags(tweet).Success?
    ensures CleanTweet(lib, tweet).value
            == CopyKeys(tweet, Attrs).value
                 ["created_at" := Str(UtcCreatedAt(lib, tweet["timestamp_ms"]).value)]
                 ["user" := Dict(UserFields(tweet).value["created_at" :=
                             GetUserCreated(lib, tweet["user"].fields["created_at"],
                                            tweet["user"].fields["time_zone"]).value])]
                 ["hashtags" := List(Hashtags(tweet).value)]
  {
    KeyFacts();
  }

  /** The record holds exactly the nine copied keys plus `user` and
      `hashtags`. */
  lemma CleanTweetKeys(lib: TimeLib, tweet: map<string, Value>)
    requires CleanTweet(lib, tweet).Success?
    ensures CleanTweet(lib, tweet).value.Keys == KeySet(Attrs) + {"user", "hashtags"}
  {
    CleanTweetSteps(lib, tweet);
    KeyFacts();
  }

  /** Every copied top-level field but `created_at` is the tweet's own value. */
  lemma CleanTweetCopiesTopLevel(lib: TimeLib, tweet: map<string, Value>)
    requires CleanTweet(lib, tweet).Success?
    ensures forall i | 0 <= i < |Attrs| :: Attrs[i] in tweet
    ensures forall i | 0 <= i < |Attrs| && Attrs[i] != "created_at" ::
              CleanTweet(lib, tweet).value[Attrs[i]] == tweet[Attrs[i]]
  {
    CleanTweetSteps(lib, tweet);
    KeyFacts();
  }

  /** The record's `user` holds exactly the ten copied user keys, and every
      one but `created_at` is the tweet's own value. */
  lemma CleanTweetCopiesUser(lib: TimeLib, tweet: map<string, Value>)
    requires CleanTweet(lib, tweet).Success?
    ensures "user" in tweet && tweet["user"].Dict?
    ensures forall i | 0 <= i < |UserAttrs| :: UserAttrs[i] in tweet["user"].fields
    ensures CleanTweet(lib, tweet).value["user"].Dict?
    ensures CleanTweet(lib, tweet).value["user"].fields.Keys == KeySet(UserAttrs)
    ensures forall i | 0 <= i < |UserAttrs| && UserAttrs[i] != "created_at" ::
              CleanTweet(lib, tweet).value["user"].fields[UserAttrs[i]] == tweet["user"].fields[UserAttrs[i]]
  {
    CleanTweetSteps(lib, tweet);
    KeyFacts();
  }

  /** `created_at` is always written, from `timestamp_ms` alone. */
  lemma CleanTweetCreatedAt(lib: TimeLib, tweet: map<string, Value>)
    requires CleanTweet(lib, tweet).Success?
    ensures "timestamp_ms" in tweet && UtcCreatedAt(lib, tweet["timestamp_ms"]).Success?
    ensures "created_at" in CleanTweet(lib, tweet).value
    ensures CleanTweet(lib, tweet).value["created_at"] == Str(UtcCreatedAt(lib, tweet["timestamp_ms"]).value)
  {
    CleanTweetSteps(lib, tweet);
    KeyFacts();
  }

  /** The user's `created_at` is resolved from the user's own `created_at`
      and `time_zone`. */
  lemma CleanTweetUserCreated(lib: TimeLib, tweet: map<string, Value>)
    requires CleanTweet(lib, tweet).Success?
    ensures "user" in tweet && tweet["user"].Dict?
    ensures "created_at" in tweet["user"].fields && "time_zone" in tweet["user"].fields
    ensures CleanTweet(lib, tweet).value["user"].Dict?
    ensures "created_at" in CleanTweet(lib, tweet).value["user"].fields
    ensures GetUserCreated(lib, tweet["user"].fields["created_at"], tweet["user"].fields["time_zone"]).Success?
    ensures CleanTweet(lib, tweet).value["user"].fields["created_at"]
            == GetUserCreated(lib, tweet["user"].fields["created_at"], tweet["user"].fields["time_zone"]).value
  {
    CleanTweetSteps(lib, tweet);
    KeyFacts();
  }

  /** The record's `hashtags` is the list of the entities' hashtag texts. */
  lemma CleanTweetHashtags(lib: TimeLib, tweet: map<string, Value>)
    requires CleanTweet(lib, tweet).Success?
    ensures Hashtags(tweet).Success?
    ensures CleanTweet(lib, tweet).value["hashtags"] == List(Hashtags(tweet).value)
  {
    CleanTweetSteps(lib, tweet);
  }

  /** Normalisation fails, and no record is made, when any required key is
      missing: one of the nine top-level keys, `user` or one of its ten keys,
      `entities` or its `hashtags`, or the `text` of a hashtag. */
  lemma MissingRequiredKeyFails(lib: TimeLib, now: Wall, tweet: map<string, Value>,
                                keywords: seq<string>, name: string, producer: string)
    requires || (exists i :: 0 <= i < |Attrs| && Attrs[i] !in tweet)
             || "user" !in tweet
             || ("user" in tweet && tweet["user"].Dict?
                 && exists i :: 0 <= i < |UserAttrs| && UserAttrs[i] !in tweet["user"].fields)
             || "entities" !in tweet
             || ("entities" in tweet && tweet["entities"].Dict? && "hashtags" !in tweet["entities"].fields)
             || ("entities" in tweet && tweet["entities"].Dict? && "hashtags" in tweet["entities"].fields
                 && tweet["entities"].fields["hashtags"].List?
                 && exists i :: 0 <= i < |tweet["entities"].fields["hashtags"].items|
                                && tweet["entities"].fields["hashtags"].items[i].Dict?
                                && "text" !in tweet["entities"].fields["hashtags"].items[i].fields)
    ensures CreateTweetForKinesis(lib, now, tweet, keywords, name, producer).Failure?
  {
    if CreateTweetForKinesis(lib, now, tweet, keywords, name, producer).Success? {
      CleanTweetCopiesTopLevel(lib, tweet);
      CleanTweetCopiesUser(lib, tweet);
      CleanTweetHashtags(lib, tweet);
      assert false;
    }
  }

  /** `{a: src[a] for a in keys}` reads nothing but the listed keys. */
  lemma {:induction false} CopyKeysReadsOnlyKeys(a: map<string, Value>, b: map<string, Value>, keys: seq<string>)
    requires forall i | 0 <= i < |keys| :: (keys[i] in a <==> keys[i] in b)
    requires forall i | 0 <= i < |keys| && keys[i] in a :: a[keys[i]] == b[keys[i]]
    ensures CopyKeys(a, keys) == CopyKeys(b, keys)
  {
    if |keys| > 0 {
      CopyKeysReadsOnlyKeys(a, b, keys[1..]);
    }
  }

  /** Normalisation reads only the nine listed keys, `user` and `entities`:
      tweets that agree on those give the same outcome. */
  lemma CleanTweetReadsOnlyListedKeys(lib: TimeLib, t1: map<string, Value>, t2: map<string, Value>)
    requires forall i | 0 <= i < |Attrs| :: (Attrs[i] in t1 <==> Attrs[i] in t2)
    requires forall i | 0 <= i < |Attrs| && Attrs[i] in t1 :: t1[Attrs[i]] == t2[Attrs[i]]
    requires ("user" in t1 <==> "user" in t2) && ("user" in t1 ==> t1["user"] == t2["user"])
    requires ("entities" in t1 <==> "entities" in t2) && ("entities" in t1 ==> t1["entities"] == t2["entities"])
    ensures CleanTweet(lib, t1) == CleanTweet(lib, t2)
  {
    CopyKeysReadsOnlyKeys(t1, t2, Attrs);
    assert UserFields(t1) == UserFields(t2);
    assert Hashtags(t1) == Hashtags(t2);
  }

  /** The hashtag texts of a JSON tweet are JSON. */
  lemma HashtagsAreJson(tweet: map<string, Value>)
    requires IsJson(Dict(tweet))
    requires Hashtags(tweet).Success?
    ensures forall i | 0 <= i < |Hashtags(tweet).value| :: IsJson(Hashtags(tweet).value[i])
  {
    var tags := tweet["entities"].fields["hashtags"];
    assert IsJson(tweet["entities"]);
    assert IsJson(tags);
    var texts := Hashtags(tweet).value;
    if tags.List? {
      forall i | 0 <= i < |texts| ensures IsJson(texts[i]) {
        assert IsJson(tags.items[i]);
      }
    }
  }

  /** On a JSON tweet, every top-level field of the cleaned tweet but `user`
      is JSON. */
  lemma CleanTweetTopLevelJson(lib: TimeLib, tweet: map<string, Value>)
    requires IsJson(Dict(tweet))
    requires CleanTweet(lib, tweet).Success?
    ensures forall k | k in CleanTweet(lib, tweet).value && k != "user" :: IsJson(CleanTweet(lib, tweet).value[k])
  {
    var clean := CleanTweet(lib, tweet).value;
    CleanTweetKeys(lib, tweet);
    forall k | k in clean && k != "user" ensures IsJson(clean[k]) {
      if k == "hashtags" {
        CleanTweetHashtags(lib, tweet);
        HashtagsAreJson(tweet);
      } else if k == "created_at" {
        CleanTweetCreatedAt(lib, tweet);
      } else {
        CleanTweetCopiesTopLevel(lib, tweet);
        var i :| 0 <= i < |Attrs| && Attrs[i] == k;
      }
    }
  }

  /** On a JSON tweet, every field of the cleaned tweet's `user` but
      `created_at` is JSON. */
  lemma CleanTweetUserJson(lib: TimeLib, tweet: map<string, Value>)
    requires IsJson(Dict(tweet))
    requires CleanTweet(lib, tweet).Success?
    ensures CleanTweet(lib, tweet).value["user"].Dict?
    ensures forall k | k in CleanTweet(lib, tweet).value["user"].fields && k != "created_at" ::
              IsJson(CleanTweet(lib, tweet).value["user"].fields[k])
  {
    var user := CleanTweet(lib, tweet).value["user"];
    CleanTweetCopiesUser(lib, tweet);
    assert IsJson(tweet["user"]);
    forall k | k in user.fields && k != "created_at" ensures IsJson(user.fields[k]) {
      var i :| 0 <= i < |UserAttrs| && UserAttrs[i] == k;
    }
  }

  /** On a JSON tweet, every part of the cleaned tweet is JSON except
      possibly the user's `created_at`. */
  lemma CleanTweetJsonBesideUserCreated(lib: TimeLib, tweet: map<string, Value>)
    requires IsJson(Dict(tweet))
    requires CleanTweet(lib, tweet).Success?
    ensures forall k | k in CleanTweet(lib, tweet).value && k != "user" :: IsJson(CleanTweet(lib, tweet).value[k])
    ensures CleanTweet(lib, tweet).value["user"].Dict?
    ensures forall k | k in CleanTweet(lib, tweet).value["user"].fields && k != "created_at" ::
              IsJson(CleanTweet(lib, tweet).value["user"].fields[k])
  {
    CleanTweetTopLevelJson(lib, tweet);
    CleanTweetUserJson(lib, tweet);
  }

  /** Adding `name` and `meta` keeps every entry but `user` JSON, and leaves
      `user` alone. */
  lemma AddNameAndMetaKeepsJson(clean: Record, lib: TimeLib, now: Wall, name: string, producer: string,
                                keywords: seq<string>)
    requires forall k | k in clean && k != "user" :: IsJson(clean[k])
    ensures forall k | k in AddNameAndMeta(clean, lib, now, name, producer, keywords) && k != "user" ::
              IsJson(AddNameAndMeta(clean, lib, now, name, producer, keywords)[k])
    ensures "user" in clean ==> AddNameAndMeta(clean, lib, now, name, producer, keywords)["user"] == clean["user"]
  {
    var m := Meta(lib, now, producer, keywords);
    assert IsJson(m);
  }

  /** On a JSON tweet, every part of the record is JSON except possibly the
      user's `created_at`. */
  lemma RecordJsonBesideUserCreated(lib: TimeLib, now: Wall, tweet: map<string, Value>,
                                    keywords: seq<string>, name: string, producer: string)
    requires IsJson(Dict(tweet))
    requires CreateTweetForKinesis(lib, now, tweet, keywords, name, producer).Success?
    ensures var rec := CreateTweetForKinesis(lib, now, tweet, keywords, name, producer).value;
            && "user" in rec && rec["user"].Dict? && "created_at" in rec["user"].fields
            && (forall k | k in rec && k != "user" :: IsJson(rec[k]))
            && (forall k | k in rec["user"].fields && k != "created_at" :: IsJson(rec["user"].fields[k]))
            && rec["user"].fields["created_at"] == CleanTweet(lib, tweet).value["user"].fields["created_at"]
  {
    var clean := CleanTweet(lib, tweet).value;
    CleanTweetJsonBesideUserCreated(lib, tweet);
    CleanTweetUserCreated(lib, tweet);
    AddNameAndMetaKeepsJson(clean, lib, now, name, producer, keywords);
  }

  /** Every record has a `user` dict. */
  lemma RecordHasUser(lib: TimeLib, now: Wall, tweet: map<string, Value>,
                      keywords: seq<string>, name: string, producer: string)
    requires CreateTweetForKinesis(lib, now, tweet, keywords, name, producer).Success?
    ensures "user" in CreateTweetForKinesis(lib, now, tweet, keywords, name, producer).value
    ensures CreateTweetForKinesis(lib, now, tweet, keywords, name, producer).value["user"].Dict?
  {
    CleanTweetUserCreated(lib, tweet);
  }
}

=== FILE: timelib.dfy ===
/** The standard-library and third-party time handling the normaliser calls,
    taken as given: the model fixes where each is called and what happens when
    it raises, not how it computes. */
module TimeLib {
  import opened Wrappers
  import opened Values

  /** One snapshot of the libraries. `None` stands for "the call raised". */
  datatype TimeLib = TimeLib(
    /** `int(s)` for a `str` argument. */
    intOfString: string -> Option<int>,
    /** `datetime.fromtimestamp(ms / 1000).astimezone(pytz.utc).isoformat()`. */
    utcIsoFromMillis: int -> Option<string>,
    /** `dateutil.parser.parse(s)`. */
    parse: string -> Option<DateTime>,
    /** `pytz.timezone(zone).localize(wall, is_dst=None)`: the UTC offset it
        attaches; `None` for an ambiguous or non-existent local time. */
    localize: (string, Wall) -> Option<int>,
    /** `datetime.isoformat()`, naive or aware. */
    isoformat: DateTime -> string,
    /** `pytz.all_timezones_set`, in the order `set(...)` iterates it. */
    zones: seq<string>
  )
}

=== FILE: values.dfy ===
/** The Python values the normaliser handles: what `json.loads` produces for a
    tweet, plus the `datetime` objects the normaliser itself creates. */
module Values {
  import opened Wrappers

  /** The fields of a naive `datetime`: a calendar date and a wall-clock time. */
  datatype Wall = Wall(year: int, month: int, day: int, hour: int, minute: int, second: int, microsecond: int)

  /** A `tzinfo`: the zone's name and the UTC offset it gives this instant. */
  datatype TzInfo = TzInfo(name: string, utcOffsetSeconds: int)

  /** A `datetime`; `tzinfo == None` is a naive one. */
  datatype DateTime = DateTime(wall: Wall, tzinfo: Option<TzInfo>)

  /** A decoded JSON value (numbers are integers, see README), or a `datetime`. */
  datatype Value =
    | Null
    | Bool(boolean: bool)
    | Int(number: int)
    | Str(str: string)
    | List(items: seq<Value>)
    | Dict(fields: map<string, Value>)
    | Time(time: DateTime)

  /** True when `json.dumps` can encode `v`: no `datetime` anywhere inside it. */
  predicate IsJson(v: Value)
  {
    match v
    case Time(_) => false
    case List(items) => forall i | 0 <= i < |items| :: IsJson(items[i])
    case Dict(fields) => forall k | k in fields :: IsJson(fields[k])
    case _ => true
  }
}

=== FILE: wrappers.dfy ===
/** Option and Result, the latter usable with `:-` so that a Python exception
    propagates out of the expression that raised it. */
module Wrappers {

  datatype Option<+T> = None | Some(value: T)

  datatype Result<+T, +E> = Success(value: T) | Failure(error: E) {

    predicate IsFailure() {
      Failure?
    }

    function PropagateFailure<U>(): Result<U, E>
      requires Failure?
    {
      Failure(error)
    }

    function Extract(): T
      requires Success?
    {
      value
    }
  }
}

=== FILE: zones.dfy ===
/** `get_user_created`: the user's sign-up time, localised to a time zone
    whose name contains the user's free-text `time_zone` label. */
module Zones {
  import opened Wrappers
  import opened Values
  import opened TimeLib
  import opened Failures

  /** Python's `needle in hay` on two strings. */
  predicate IsSubstring(needle: string, hay: string)
    decreases |hay|
  {
    (|needle| <= |hay| && needle == hay[..|needle|])
    || (|hay| > 0 && IsSubstring(needle, hay[1..]))
  }

  /** The empty label is a substring of every name. */
  lemma EmptyIsSubstring(hay: string)
    ensures IsSubstring("", hay)
  {
  }

  /** `needle` occurs in `hay` starting at position `i`. */
  predicate OccursAt(needle: string, hay: string, i: int)
  {
    0 <= i && i + |needle| <= |hay| && hay[i..i + |needle|] == needle
  }

  /** `needle in hay` holds exactly when `needle` occurs in `hay` at some
      position. */
  lemma {:induction false} IsSubstringIffOccurs(needle: string, hay: string)
    ensures IsSubstring(needle, hay) <==> exists i :: OccursAt(needle, hay, i)
    decreases |hay|
  {
    if |needle| <= |hay| && needle == hay[..|needle|] {
      assert OccursAt(needle, hay, 0);
    }
    if |hay| > 0 {
      IsSubstringIffOccurs(needle, hay[1..]);
      if IsSubstring(needle, hay[1..]) {
        var j :| OccursAt(needle, hay[1..], j);
        assert hay[j + 1..j + 1 + |needle|] == hay[1..][j..j + |needle|];
        assert OccursAt(needle, hay, j + 1);
      }
      if exists i :: OccursAt(needle, hay, i) {
        var i :| OccursAt(needle, hay, i);
        if i > 0 {
          assert hay[1..][i - 1..i - 1 + |needle|] == hay[i..i + |needle|];
          assert OccursAt(needle, hay[1..], i - 1);
        }
      }
    } else if exists i :: OccursAt(needle, hay, i) {
      var i :| OccursAt(needle, hay, i);
      assert |needle| == 0 && i == 0;
    }
  }

  /** `[a for a in zones if time_zone in a]`: the matching zone names, in
      iteration order. */
  function MatchingZones(zoneLabel: string, zones: seq<string>): (m: seq<string>)
    ensures forall z :: z in m <==> z in zones && IsSubstring(zoneLabel, z)
    ensures |m| > 0 ==> exists i :: 0 <= i < |zones| && zones[i] == m[0]
                          && forall j | 0 <= j < i :: !IsSubstring(zoneLabel, zones[j])
  {
    if |zones| == 0 then []
    else
      var rest := MatchingZones(zoneLabel, zones[1..]);
      if IsSubstring(zoneLabel, zones[0]) then [zones[0]] + rest
      else
        assert |rest| > 0 ==> rest[0] in zones[1..];
        rest
  }

  /** The zone names `get_user_created` may localise to: those containing the
      label when it is a str, none otherwise (with no zone names at all, the
      label is never tested). */
  function Candidates(timeZone: Value, zones: seq<string>): seq<string>
  {
    if timeZone.Str? then MatchingZones(timeZone.str, zones) else []
  }

  /** `get_user_created(user_created, time_zone)` as written: the parsed time
      with its tzinfo dropped, then either localised (a `datetime`) or
      formatted naively (a `str`). */
  function GetUserCreated(lib: TimeLib, userCreated: Value, timeZone: Value): (r: Result<Value, Failure>)
    // it succeeds exactly when the label can be tested, the time is a str
    // dateutil parses, and pytz localises that wall clock to the first
    // matching zone if there is one; the library failures are those two steps
    ensures r.Success? <==>
              && (timeZone.Str? || |lib.zones| == 0)
              && userCreated.Str? && lib.parse(userCreated.str).Some?
              && (|Candidates(timeZone, lib.zones)| > 0 ==>
                    lib.localize(Candidates(timeZone, lib.zones)[0], lib.parse(userCreated.str).value.wall).Some?)
    ensures (timeZone.Str? || |lib.zones| == 0) && userCreated.Str? && lib.parse(userCreated.str).None? ==>
              r == Failure(LibraryError(UserCreatedParse))
    ensures && (timeZone.Str? || |lib.zones| == 0)
            && userCreated.Str? && lib.parse(userCreated.str).Some?
            && |Candidates(timeZone, lib.zones)| > 0
            && lib.localize(Candidates(timeZone, lib.zones)[0], lib.parse(userCreated.str).value.wall).None?
            ==> r == Failure(LibraryError(Localize))
    // `time_zone in a` raises unless the label is a str (it is evaluated only
    // when there is a zone to test)
    ensures |lib.zones| > 0 && !timeZone.Str? ==> r == Failure(TypeError(ZoneMatch))
    // dateutil parses only strings
    ensures (timeZone.Str? || |lib.zones| == 0) && !userCreated.Str? ==> r == Failure(TypeError(UserCreatedParse))
    // a match gives a datetime on the parsed wall clock in the first matching
    // zone, in iteration order
    ensures r.Success? ==>
      (r.value.Time? <==> timeZone.Str? && exists z :: z in lib.zones && IsSubstring(timeZone.str, z))
    ensures r.Success? && r.value.Time? ==>
      && r.value.time.wall == lib.parse(userCreated.str).value.wall
      && r.value.time.tzinfo.Some?
      && r.value.time.tzinfo.value.name == MatchingZones(timeZone.str, lib.zones)[0]
      && r.value.time.tzinfo.value.name in lib.zones
      && IsSubstring(timeZone.str, r.value.time.tzinfo.value.name)
      && lib.localize(r.value.time.tzinfo.value.name, r.value.time.wall)
         == Some(r.value.time.tzinfo.value.utcOffsetSeconds)
    // no match gives the naive isoformat string: any parsed tzinfo is gone
    ensures r.Success? && !r.value.Time? ==>
      r.value == Str(lib.isoformat(DateTime(lib.parse(userCreated.str).value.wall, None)))
  {
    if |lib.zones| > 0 && !timeZone.Str? then Failure(TypeError(ZoneMatch))
    else
      var matched := Candidates(timeZone, lib.zones);
      if !userCreated.Str? then Failure(TypeError(UserCreatedParse))
      else match lib.parse(userCreated.str)
        case None => Failure(LibraryError(UserCreatedParse))
        case Some(parsed) =>
          var naive := DateTime(parsed.wall, None);
          if |matched| > 0 then
            match lib.localize(matched[0], naive.wall)
            case None => Failure(LibraryError(Localize))
            case Some(offset) => Success(Time(DateTime(naive.wall, Some(TzInfo(matched[0], offset)))))
          else
            Success(Str(lib.isoformat(naive)))
  }

  /** As written, the user's time is JSON-encodable exactly when no zone name
      contains the label. */
  lemma UserCreatedJsonIffNoMatch(lib: TimeLib, userCreated: Value, timeZone: Value)
    requires GetUserCreated(lib, userCreated, timeZone).Success?
    ensures IsJson(GetUserCreated(lib, userCreated, timeZone).value)
            <==> !(timeZone.Str? && exists z :: z in lib.zones && IsSubstring(timeZone.str, z))
  {
  }

  /** `get_user_created` as evidently intended: the localised time is
      formatted with `isoformat()` like the naive one, so the result is always
      the ISO text of the parsed wall clock, carrying a zone exactly when one
      matches. */
  function GetUserCreatedIntended(lib: TimeLib, userCreated: Value, timeZone: Value): (r: Result<string, Failure>)
    ensures r.Success? <==> GetUserCreated(lib, userCreated, timeZone).Success?
    ensures r.Failure? ==> r.error == GetUserCreated(lib, userCreated, timeZone).error
    ensures r.Success? ==>
              exists d: DateTime ::
                && r.value == lib.isoformat(d)
                && d.wall == lib.parse(userCreated.str).value.wall
                && (d.tzinfo.Some? <==> timeZone.Str? && exists z :: z in lib.zones && IsSubstring(timeZone.str, z))
  {
    match GetUserCreated(lib, userCreated, timeZone)
    case Failure(e) => Failure(e)
    case Success(v) =>
      if v.Time? then Success(lib.isoformat(v.time))
      else
        assert v == Str(lib.isoformat(DateTime(lib.parse(userCreated.str).value.wall, None)));
        Success(v.str)
  }

  /** The choice among matching zones follows set iteration order only when
      several zones match: a label matched by exactly one zone always gets it. */
  lemma UniqueMatchIsChosen(lib: TimeLib, userCreated: Value, zoneLabel: string, zone: string)
    requires zone in lib.zones && IsSubstring(zoneLabel, zone)
    requires forall z | z in lib.zones && IsSubstring(zoneLabel, z) :: z == zone
    requires GetUserCreated(lib, userCreated, Str(zoneLabel)).Success?
    ensures GetUserCreated(lib, userCreated, Str(zoneLabel)).value.Time?
    ensures GetUserCreated(lib, userCreated, Str(zoneLabel)).value.time.tzinfo.value.name == zone
  {
  }

  /** An empty label matches every zone, so it never takes the naive branch
      while there is a zone at all. */
  lemma EmptyLabelAlwaysLocalised(lib: TimeLib, userCreated: Value)
    requires |lib.zones| > 0
    requires GetUserCreated(lib, userCreated, Str("")).Success?
    ensures GetUserCreated(lib, userCreated, Str("")).value.Time?
    ensures GetUserCreated(lib, userCreated, Str("")).value.time.tzinfo.value.name == lib.zones[0]
  {
    EmptyIsSubstring(lib.zones[0]);
  }
}
